=== FILE: README.md ===
# Voice-memo archive: verified model of the recording index

A Dafny model of the recording-archive logic of a small Flask server (`app.py`) that
receives WAV recordings from a handheld device, stores them as
`uploaded_YYYYMMDD_HHMMSS.wav`, lists them newest first, filters them by a date/time
range from a search form, and exports a selection as a ZIP archive.

The web framework and the file system are stripped away. What remains is pure
functions over strings, sequences and a one-second-resolution date-time record:

- **Naming** (`naming.dfy`): the canonical name written from a clock reading, and the
  timestamp read back from a directory entry name (`os.path.splitext`, then
  `str.replace("uploaded_", "")`, then `strptime("%Y%m%d_%H%M%S")`).
- **Index** (`index.dfy`): `load_all_records`. It visits the `sorted` listing, keeps
  `.wav` regular files, builds one record per name (timestamp or none, ISO text,
  empty transcript), and applies the stable `sort(key=…, reverse=True)`.
- **Range filter** (`rangefilter.dfy`): `filter_by_range` with inclusive, optional bounds.
- **Search** (`search.dfy`): the form defaults of `index` and `parse_dt`, which turns a
  date and a time text into a minute-resolution bound or no bound.
- **Store** (`store.dfy`): `upload_audio` (empty body rejected, otherwise stored under
  the generated name, overwriting) and `download_selected` (empty selection rejected,
  otherwise the requested stored files in request order, or an internal error when one
  of them cannot be added to the archive).
- **Lifecycle** (`lifecycle.dfy`): what one request guarantees to the next.
- Supporting modules: `wrappers.dfy` (`Option`), `seqs.dfy` (order-preserving
  selection), `strings.dfy` (Python `str` order, `sorted`, `rfind`, `replace`,
  `endswith`), `digits.dfy` (fixed-width decimal fields), `datetimes.dfy` (the
  date-time record, its validity and its chronological order), `timetext.dfy`
  (`isoformat`, `%Y-%m-%d`, `%H:%M`).

The clock reading, the order in which `os.listdir` reports entries, the operating
system's verdict on the upload's file write, and the set of stored files the archive
writer cannot add are parameters. The upload directory is a
`map` from entry name to a node that is either a regular file with its bytes or
something else.

Behaviour of the code worth noting:

- The export request carries a list, not a set. Repeated names give repeated
  archive members, and the request order is kept.
- Export performs no path-traversal rejection.
- Records never carry transcript text, because this server runs no speech-to-text.
- Ties in timestamp are ordered by ascending file name. This comes from the stable
  sort over the sorted listing.

## Model

| member | source | states |
|---|---|---|
| Naming.Stamp | app.py:22 | the `%Y%m%d_%H%M%S` stamp is 15 characters: eight digits, `_`, six digits; `StampRoundTrip` shows it keeps every field |
| Naming.ParseStamp | app.py:51 | the stamp parser returns only valid date-times, and only for eight digits, `_`, six digits; `StampRoundTrip` makes it the exact inverse of `Stamp` |
| Naming.SplitExtRoot | app.py:49 | on any name, `splitext` cuts at most the last `.` and what follows it, within the last path component and not leading it; it cuts nothing exactly when no `.` in that component follows a character other than `.` |
| Naming.CanonicalName | app.py:22-23 | the stored name is 28 characters long and ends in `.wav` |
| Naming.StampRoundTrip | app.py:51 | the stamp parser accepts a text exactly when it is the `%Y%m%d_%H%M%S` rendering of a valid date-time, and returns that date-time |
| Naming.SplitExtCanonical | app.py:49 | stripping the extension from a canonical name leaves `uploaded_` followed by the stamp |
| Naming.RemovePrefixFromStamp | app.py:50 | removing every `uploaded_` from `uploaded_` + stamp leaves the stamp, because a stamp contains no `u` |
| Naming.NameRoundTrip | app.py:47-53 | parsing the name written at instant `now` gives back `now` at second resolution |
| Naming.ParseName | app.py:47-53 | a name's timestamp is either absent or a valid date-time; parsing never fails |
| Strings.ReplaceAll | app.py:50 | `str.replace` leaves a string unchanged when the pattern's first character does not occur in it |
| Strings.SortNames | app.py:39 | `sorted` returns a permutation of the listing |
| Strings.SortNamesAscending | app.py:39 | on a listing without repeats, `sorted` is strictly ascending in code-point order |
| Strings.AscendingUnique | app.py:39 | two strictly ascending sequences with the same members are equal |
| Index.MakeItem | app.py:47-60 | a record carries its name, an empty transcript, and the parsed timestamp; the ISO text is empty exactly when the timestamp is absent |
| Index.Accepted | app.py:40-44 | the listing keeps a name when it ends in `.wav` and is a regular file; `IndexContents` shows the index holds exactly the records of these names |
| Index.Key | app.py:63 | a record without a timestamp sorts as `datetime.min`, no later than any dated record |
| Index.SortByTimeDesc | app.py:63 | the sort returns a permutation of its input |
| Index.SortByTimeDescOrdered | app.py:63 | after the sort, timestamps are non-increasing, a missing one counting as `datetime.min` |
| Index.SortByTimeDescStable | app.py:63 | on name-ascending input, records with equal timestamps stay in ascending name order |
| Index.LoadAllRecords | app.py:35-37 | a missing directory gives an empty index; the index never has more records than directory entries |
| Index.IndexContents | app.py:39-60 | the index is a permutation of the records of the accepted names, one per `.wav` regular file, each built from its name, and nothing else |
| Index.IndexOrder | app.py:62-63 | the index is newest first, ties in ascending name order, and no name appears twice |
| Index.UndatedLast | app.py:63 | a record without a timestamp comes after every record stamped later than `datetime.min` |
| Index.IndexIgnoresListingOrder | app.py:39 | the index does not depend on the order `os.listdir` reports entries in |
| RangeFilter.InRange | app.py:71-77 | the keep condition of the filter: the record has a timestamp, not before the start and not after the end; `InRangeChronological` states it with Python's comparison |
| RangeFilter.InRangeChronological | app.py:71-77 | on valid date-times a record is kept exactly when it has a timestamp that is, field by field, neither earlier than the start nor later than the end |
| RangeFilter.FilterByRange | app.py:66-79 | with no bounds the input comes back unchanged; with a bound, every kept record is in range and every in-range record is kept |
| RangeFilter.FilterByRangeSubsequence | app.py:69-79 | the result is an order-preserving subsequence, and each in-range record occurs as often as in the input, every other record not at all |
| RangeFilter.UndatedDropped | app.py:71-73 | with a bound given, no record without a timestamp survives |
| RangeFilter.InvertedRangeIsEmpty | app.py:74-77 | a start later than the end selects nothing |
| RangeFilter.FilterByRangeIdempotent | app.py:66-79 | filtering twice with the same bounds equals filtering once |
| DateTimes.BeforeIsChronological | app.py:74-76 | the model's `<` on valid date-times is Python's field-by-field comparison |
| DateTimes.MinIsEarliest | app.py:63 | no valid date-time is earlier than `datetime.min` |
| TimeText.FormatDate | app.py:150-151 | today's default search date is ten characters with `-` at positions 4 and 7; `ParseBoundRoundTrip` and `DefaultBoundsAreToday` show it spells exactly the date of `now` |
| TimeText.IsoFormat | app.py:57 | the ISO text is 19 characters: the `%Y-%m-%d` date, `T`, and `:` at positions 13 and 16; with `IsoFormatFields` this fixes every character |
| TimeText.IsoFormatFields | app.py:57 | the ISO text holds year, month, day, hour, minute and second, zero-padded, at fixed positions |
| TimeText.IsoFormatInjective | app.py:57 | two valid date-times with the same ISO text are equal, so the record's text determines its timestamp to the second |
| TimeText.ParseMinute | app.py:172 | the minute parser returns only valid date-times with zero seconds, and only for a text shaped `dddd-dd-dd dd:dd`; `MinuteRoundTrip` makes it the exact inverse of the form's rendering |
| TimeText.MinuteRoundTrip | app.py:172 | the minute parser accepts a text exactly when it is the `%Y-%m-%d %H:%M` rendering of a valid date-time with zero seconds, and returns it |
| Search.ParseBound | app.py:166-175 | an empty date gives no bound; a bound has zero seconds and its rendering is the date, a space and the effective time |
| Search.ParseBoundExact | app.py:169-175 | for a non-empty date, the result is a bound exactly when date + space + effective time spells a valid minute, and then it is that minute |
| Search.ParseBoundRoundTrip | app.py:172 | the form's rendering of a date-time parses to that date-time with its seconds dropped |
| Search.ParseBoundEmptyTime | app.py:169-170 | an empty time means 00:00 for a start bound and 23:59 for an end bound |
| Search.FieldOr | app.py:155-164 | a submitted non-empty field is used; a missing or empty field, or a GET, falls back to the default |
| Search.SearchBounds | app.py:149-178 | bounds have zero seconds, and without a form both bounds are present; `FormStartBound` and `FormEndBound` fix both bounds for a submitted form |
| Search.FormStartBound | app.py:149-177 | with a submitted form the start bound is the minute that `start_date` and `start_time` spell, a missing or empty field falling back to today's date or 00:00; no bound when they spell no valid minute |
| Search.FormEndBound | app.py:149-177 | the same for the end bound, with `end_date`, `end_time` and the fallback 23:59 |
| Search.DefaultBoundsAreToday | app.py:149-178 | without a form the bounds are today at 00:00:00 and today at 23:59:00 |
| Search.DefaultViewWindow | app.py:149-181 | without a form a date-time is in range exactly when it is today and not within the last 59 seconds of the day |
| Search.SearchView | app.py:177-181 | the page lists records of the index, in index order; when neither bound parses it lists the whole index, undated records included; otherwise it lists exactly the indexed records within the bounds |
| Search.DefaultSearchView | app.py:177-181 | without a form the page lists, in index order, exactly the indexed records dated within today's window |
| Store.UploadAudio | app.py:89-105 | an empty body gives 400 "no data" and changes nothing; a failed save gives 500 and changes nothing; otherwise the body is stored under the canonical name, overwriting, other entries untouched, and that name is returned and parses back to the instant |
| Store.Pack | app.py:129-133 | every archive member is a stored regular file with its stored bytes |
| Store.PackNames | app.py:130-133 | the member names are the requested names that are stored files, in request order, repeats included |
| Store.DownloadSelected | app.py:123-134 | an empty selection, and only that, gives 400 "no files selected"; a non-empty selection gives the internal-error 500 exactly when some requested stored file cannot be added to the archive, and succeeds otherwise |
| Store.ExportContents | app.py:128-133 | a non-empty selection succeeds exactly when every requested stored file can be added; then members form a subsequence of the request, carry the stored bytes, and each stored name occurs as often as requested |
| Lifecycle.UploadIsIndexed | app.py:22-60 | after a successful upload at `now`, the index lists the new file exactly once, stamped `now`, with its ISO text and an empty transcript |
| Lifecycle.UploadThenExport | app.py:123-133 | exporting just the uploaded name yields one member holding the uploaded bytes, or the internal-error 500 when the archive writer cannot add that file |
| Lifecycle.RejectedUploadKeepsIndex | app.py:89-99 | a rejected upload leaves the index as it was |

## Left out

- Flask routing, `jsonify`, `render_template`, `send_file` and the `/audio/<filename>` route (`send_from_directory`): these are web-framework plumbing. Replies are a small `Reply` datatype holding a value, or an error status with its message.
- Real file-system I/O (`os.makedirs`, `open`/`write`, `os.listdir`, `os.path.isfile`). The directory is a `map`. The `os.listdir` result is a parameter that must list the map's keys without repeats. `isfile` is whether the node is a regular file.
- `zipfile` and DEFLATE compression. The archive is modelled as its list of members (name and bytes), not as archive bytes.
- `datetime.now()`: the clock reading is a parameter.
- Store.UploadAudio: the operating system's verdict on the write is the `saveError` parameter. The requires clause excludes a successful write onto any entry that is not a regular file, since the directory map has no node for what lies behind such an entry. The server's behaviour there is not modelled: a sub-directory refuses the write; a dangling symbolic link is followed, its target is created and the reply is 200; a FIFO blocks the request. A partially written file left by a failed write is not modelled either.
- CPython `strptime` leniency, for example single-digit fields or leading spaces. The parsers are the exact inverse of the zero-padded formats, so names that only the lenient parser accepts are modelled as having no timestamp.
- `strftime("%Y")` is modelled as four zero-padded digits. On glibc, years below 1000 are not padded, so the model's names agree with the server's only for years 1000-9999. Every wall-clock reading falls in that range.
- Index.IndexContents: file names are Dafny strings, which hold only Unicode scalar values. On POSIX, `os.listdir` turns name bytes that are not valid UTF-8 into lone surrogates (`b"\xff.wav"` becomes `"\udcff.wav"`), and the server lists such a file as an undated record. The model cannot represent these names, so its index covers only directories whose names are valid Unicode.
- Speech-to-text and transcript storage: this server performs none, and a record's text is always empty.
- Store.ExportContents / Lifecycle.UploadThenExport: request names are looked up in the directory map literally. The server joins them onto the directory with `os.path.join` unchecked. So a name that escapes the directory, or one that reaches a stored file by another spelling (`./x.wav`, an absolute path, `..` segments), or a file inside a sub-directory (`sub/x.wav`), is archived by the server under its normalised name but skipped by the model.
- Store.DownloadSelected: which stored files the archive writer cannot add is the `unwritable` parameter. This covers a file that cannot be read, one removed after the `isfile` test, and one whose modification time is before 1980. The model does not derive this from file metadata. The 500 reply is the framework's default error page, which the model represents by its status and title only.
- Requests are modelled one at a time, each a function from the directory to a reply and a new directory. The server (`app.run(debug=True)`, or a process manager) runs them concurrently, and the model does not cover what interleaving produces. Two uploads within the same second both open the same canonical path for truncating writes and both reply 200 with the same name, so the stored file can hold the start of one body followed by the rest of the other, whereas Store.UploadAudio promises the file holds exactly the body. An export running during an upload can archive a half-written file, and an index built during one can list it.
- Logging via `print`.
- The date-time order is a mixed-radix key over the fields. It equals Python's comparison on valid date-times (DateTimes.BeforeIsChronological) but is not a count of seconds.

=== FILE: datetimes.dfy ===
/** A naive `datetime` at one-second resolution: the values the program builds from
    file names, from the search form and from the clock. */
module DateTimes {

  datatype DateTime = DateTime(year: int, month: int, day: int, hour: int, minute: int, second: int)

  /** The proleptic Gregorian leap-year rule. */
  predicate IsLeapYear(y: int) {
    y % 4 == 0 && (y % 100 != 0 || y % 400 == 0)
  }

  function DaysInMonth(y: int, m: int): (r: int)
    requires 1 <= m <= 12
    ensures 28 <= r <= 31
  {
    if m == 2 then (if IsLeapYear(y) then 29 else 28)
    else if m == 4 || m == 6 || m == 9 || m == 11 then 30
    else 31
  }

  /** The field ranges the `datetime` constructor accepts (microseconds are always 0 here). */
  predicate Valid(dt: DateTime) {
    && 1 <= dt.year <= 9999
    && 1 <= dt.month <= 12
    && 1 <= dt.day <= DaysInMonth(dt.year, dt.month)
    && 0 <= dt.hour < 24
    && 0 <= dt.minute < 60
    && 0 <= dt.second < 60
  }

  /** `datetime.min`. */
  const MinDateTime := DateTime(1, 1, 1, 0, 0, 0)

  /** A mixed-radix count that grows with every field in significance order; it is
      not a count of seconds, only a key for comparisons. */
  function Ordinal(dt: DateTime): int {
    ((((dt.year * 13 + dt.month) * 32 + dt.day) * 24 + dt.hour) * 60 + dt.minute) * 60 + dt.second
  }

  /** `a < b` on datetimes. */
  predicate Before(a: DateTime, b: DateTime) {
    Ordinal(a) < Ordinal(b)
  }

  /** Python's comparison of two naive datetimes: field by field, most significant first. */
  predicate FieldwiseBefore(a: DateTime, b: DateTime) {
    || a.year < b.year
    || (a.year == b.year && a.month < b.month)
    || (a.year == b.year && a.month == b.month && a.day < b.day)
    || (a.year == b.year && a.month == b.month && a.day == b.day && a.hour < b.hour)
    || (a.year == b.year && a.month == b.month && a.day == b.day && a.hour == b.hour && a.minute < b.minute)
    || (a.year == b.year && a.month == b.month && a.day == b.day && a.hour == b.hour && a.minute == b.minute
        && a.second < b.second)
  }

  /** On valid datetimes the ordinal order is Python's chronological order. */
  lemma BeforeIsChronological(a: DateTime, b: DateTime)
    requires Valid(a) && Valid(b)
    ensures Before(a, b) <==> FieldwiseBefore(a, b)
  {
  }

  /** Distinct valid datetimes have distinct ordinals. */
  lemma OrdinalInjective(a: DateTime, b: DateTime)
    requires Valid(a) && Valid(b) && Ordinal(a) == Ordinal(b)
    ensures a == b
  {
    BeforeIsChronological(a, b);
    BeforeIsChronological(b, a);
  }

  /** No valid datetime is earlier than `datetime.min`. */
  lemma MinIsEarliest(dt: DateTime)
    requires Valid(dt)
    ensures Valid(MinDateTime) && !Before(dt, MinDateTime)
  {
  }
}

=== FILE: digits.dfy ===
/** Fixed-width decimal fields, as `strftime` writes `%Y`, `%m`, `%d`, `%H`, `%M`, `%S`
    and as `strptime` reads them back. */
module Digits {

  predicate IsDigit(c: char) {
    '0' <= c <= '9'
  }

  predicate AllDigits(s: string) {
    forall i :: 0 <= i < |s| ==> IsDigit(s[i])
  }

  function Pow10(n: nat): (r: nat)
    ensures r >= 1
  {
    if n == 0 then 1 else 10 * Pow10(n - 1)
  }

  /** The value of a string of decimal digits. */
  function Value(s: string): (r: nat)
    requires AllDigits(s)
    ensures r < Pow10(|s|)
  {
    if s == [] then 0
    else Value(s[..|s| - 1]) * 10 + (s[|s| - 1] as int - '0' as int)
  }

  /** The value of a decimal field, or -1 when it holds anything but digits. */
  function Num(s: string): (r: int)
    ensures r >= 0 <==> AllDigits(s)
  {
    if AllDigits(s) then Value(s) else -1
  }

  /** `n` written in exactly `width` digits, zero-padded on the left, keeping the
      low `width` digits. */
  function Pad(n: nat, width: nat): (r: string)
    ensures |r| == width && AllDigits(r)
  {
    if width == 0 then []
    else Pad(n / 10, width - 1) + [('0' as int + n % 10) as char]
  }

  /** Reading back a padded field gives the number, when it fits the width. */
  lemma {:induction false} NumPad(n: nat, width: nat)
    requires n < Pow10(width)
    ensures Num(Pad(n, width)) == n
  {
    if width > 0 {
      NumPad(n / 10, width - 1);
      var s := Pad(n, width);
      assert s[..|s| - 1] == Pad(n / 10, width - 1);
    }
  }

  /** Padding the value of a digit string to its own length gives the string back. */
  lemma {:induction false} PadNum(s: string)
    requires AllDigits(s)
    ensures Pad(Num(s), |s|) == s
  {
    if s != [] {
      var t := s[..|s| - 1];
      PadNum(t);
      var n := Value(s);
      assert n / 10 == Value(t);
      assert s == t + [s[|s| - 1]];
    }
  }
}

=== FILE: index.dfy ===
/** `load_all_records`: one view record per `.wav` regular file of the upload
    directory, newest first. */
module Index {
  import opened Wrappers
  import opened Seqs
  import opened Strings
  import opened DateTimes
  import opened TimeText
  import opened Naming
  import opened Store

  /** A view record: the entry name, its ISO timestamp text (empty when the name does
      not parse), the parsed timestamp and the transcript text, which is always empty. */
  datatype Item = Item(filename: string, datetime: string, dt: Option<DateTime>, text: string)

  /** The record built for one accepted entry name; an unparsable name gives a record
      without a timestamp instead of an error. */
  function MakeItem(name: string): (it: Item)
    ensures it.filename == name && it.text == ""
    ensures it.dt == ParseName(name)
    ensures it.dt.None? <==> it.datetime == ""
    ensures it.dt.Some? ==> Valid(it.dt.value) && it.datetime == IsoFormat(it.dt.value)
  {
    var dt := ParseName(name);
    Item(name, if dt.Some? then IsoFormat(dt.value) else "", dt, "")
  }

  function MakeItems(names: seq<string>): (r: seq<Item>)
    ensures |r| == |names|
    ensures forall i :: 0 <= i < |r| ==> r[i] == MakeItem(names[i])
  {
    if names == [] then [] else [MakeItem(names[0])] + MakeItems(names[1..])
  }

  /** The names the index keeps: ending in `.wav` and naming a regular file. */
  predicate Accepted(d: Directory, name: string) {
    EndsWith(name, Extension) && IsFile(d, name)
  }

  function AcceptedIn(d: Directory): string -> bool {
    name => Accepted(d, name)
  }

  /** The sort key: the timestamp, with `datetime.min` standing in for a missing one. */
  function Key(it: Item): (r: int)
    ensures it.dt.None? ==> r == Ordinal(MinDateTime)
    ensures it.dt.Some? && Valid(it.dt.value) ==> r >= Ordinal(MinDateTime)
  {
    if it.dt.Some? && Valid(it.dt.value) then MinIsEarliest(it.dt.value); Ordinal(it.dt.value)
    else Ordinal(it.dt.GetOr(MinDateTime))
  }

  /** Places `x` before the first element whose key is not greater than its own. */
  function InsertByTime(x: Item, s: seq<Item>): (r: seq<Item>)
    ensures multiset(r) == multiset(s) + multiset{x}
  {
    if s == [] then [x]
    else if Key(s[0]) <= Key(x) then [x] + s
    else
      assert s == [s[0]] + s[1..];
      [s[0]] + InsertByTime(x, s[1..])
  }

  /** `items.sort(key=…, reverse=True)`: a stable sort, newest first. */
  function SortByTimeDesc(s: seq<Item>): (r: seq<Item>)
    ensures multiset(r) == multiset(s)
  {
    if s == [] then []
    else
      assert s == [s[0]] + s[1..];
      InsertByTime(s[0], SortByTimeDesc(s[1..]))
  }

  ghost predicate NewestFirst(r: seq<Item>) {
    forall i, j :: 0 <= i < j < |r| ==> Key(r[j]) <= Key(r[i])
  }

  /** Newest first, and among equal timestamps by ascending name. */
  ghost predicate NewestFirstThenByName(r: seq<Item>) {
    forall i, j :: 0 <= i < j < |r| ==>
      Key(r[j]) < Key(r[i]) || (Key(r[j]) == Key(r[i]) && Less(r[i].filename, r[j].filename))
  }

  ghost predicate NamesAscending(s: seq<Item>) {
    forall i, j :: 0 <= i < j < |s| ==> Less(s[i].filename, s[j].filename)
  }

  lemma {:induction false} InsertByTimeOrdered(x: Item, s: seq<Item>)
    requires NewestFirst(s)
    ensures NewestFirst(InsertByTime(x, s))
    decreases |s|
  {
    if s != [] && Key(s[0]) > Key(x) {
      InsertByTimeOrdered(x, s[1..]);
      var t := InsertByTime(x, s[1..]);
      forall j | 0 <= j < |t| ensures Key(t[j]) <= Key(s[0]) {
        assert t[j] in multiset(s[1..]) + multiset{x};
      }
    }
  }

  /** The sort leaves timestamps non-increasing, for any input. */
  lemma {:induction false} SortByTimeDescOrdered(s: seq<Item>)
    ensures NewestFirst(SortByTimeDesc(s))
    decreases |s|
  {
    if s != [] {
      SortByTimeDescOrdered(s[1..]);
      InsertByTimeOrdered(s[0], SortByTimeDesc(s[1..]));
    }
  }

  lemma {:induction false} InsertByTimeStable(x: Item, s: seq<Item>)
    requires NewestFirstThenByName(s)
    requires forall i :: 0 <= i < |s| ==> Less(x.filename, s[i].filename)
    ensures NewestFirstThenByName(InsertByTime(x, s))
    decreases |s|
  {
    if s != [] && Key(s[0]) > Key(x) {
      InsertByTimeStable(x, s[1..]);
      var t := InsertByTime(x, s[1..]);
      forall j | 0 <= j < |t|
        ensures Key(t[j]) < Key(s[0]) || (Key(t[j]) == Key(s[0]) && Less(s[0].filename, t[j].filename))
      {
        assert t[j] in multiset(s[1..]) + multiset{x};
      }
    }
  }

  /** The sort is stable: on input in ascending name order, ties in timestamp keep
      ascending name order. */
  lemma {:induction false} SortByTimeDescStable(s: seq<Item>)
    requires NamesAscending(s)
    ensures NewestFirstThenByName(SortByTimeDesc(s))
    decreases |s|
  {
    if s != [] {
      SortByTimeDescStable(s[1..]);
      var t := SortByTimeDesc(s[1..]);
      forall i | 0 <= i < |t| ensures Less(s[0].filename, t[i].filename) {
        assert t[i] in multiset(s[1..]);
      }
      InsertByTimeStable(s[0], t);
    }
  }

  /** `listing` is a possible result of `os.listdir` on `d`. */
  ghost predicate IsListingOf(listing: seq<string>, d: Directory) {
    NoDuplicates(listing) && forall n :: n in listing <==> n in d
  }

  /** The accepted entries in the order they are visited: ascending by name. */
  function AcceptedItems(d: Directory, listing: seq<string>): seq<Item> {
    MakeItems(Filter(SortNames(listing), AcceptedIn(d)))
  }

  /** `load_all_records` on the directory `dir` (`None` when it does not exist), whose
      entries `os.listdir` reports as `listing`. */
  function LoadAllRecords(dir: Option<Directory>, listing: seq<string>): (r: seq<Item>)
    requires dir.Some? ==> IsListingOf(listing, dir.value)
    ensures dir.None? ==> r == []
    ensures |r| <= |listing|
  {
    match dir
    case None => []
    case Some(d) =>
      var items := AcceptedItems(d, listing);
      assert |SortByTimeDesc(items)| == |multiset(items)| == |items|;
      assert |SortNames(listing)| == |multiset(listing)|;
      SortByTimeDesc(items)
  }

  lemma AcceptedItemsSound(d: Directory, listing: seq<string>, it: Item)
    requires it in AcceptedItems(d, listing)
    ensures it == MakeItem(it.filename) && Accepted(d, it.filename)
  {
    var names := Filter(SortNames(listing), AcceptedIn(d));
    var k :| 0 <= k < |names| && MakeItems(names)[k] == it;
    assert names[k] in names;
  }

  lemma AcceptedItemsAscending(d: Directory, listing: seq<string>)
    requires IsListingOf(listing, d)
    ensures NamesAscending(AcceptedItems(d, listing))
  {
    SortNamesAscending(listing);
    FilterAscending(SortNames(listing), AcceptedIn(d));
  }

  /** The index holds one record for every accepted name and nothing else, each built
      from its name, and is a permutation of the accepted records. */
  lemma IndexContents(d: Directory, listing: seq<string>)
    requires IsListingOf(listing, d)
    ensures var r := LoadAllRecords(Some(d), listing);
      && multiset(r) == multiset(AcceptedItems(d, listing))
      && (forall n :: Accepted(d, n) ==> MakeItem(n) in r)
      && (forall i :: 0 <= i < |r| ==> r[i] == MakeItem(r[i].filename) && Accepted(d, r[i].filename))
  {
    var items := AcceptedItems(d, listing);
    var r := SortByTimeDesc(items);
    assert r == LoadAllRecords(Some(d), listing);
    forall i | 0 <= i < |r| ensures r[i] == MakeItem(r[i].filename) && Accepted(d, r[i].filename) {
      assert r[i] in multiset(items);
      AcceptedItemsSound(d, listing, r[i]);
    }
    forall n | Accepted(d, n) ensures MakeItem(n) in r {
      AcceptedItemsComplete(d, listing, n);
      assert MakeItem(n) in multiset(items);
    }
  }

  lemma AcceptedItemsComplete(d: Directory, listing: seq<string>, n: string)
    requires IsListingOf(listing, d) && Accepted(d, n)
    ensures MakeItem(n) in AcceptedItems(d, listing)
  {
    var sorted := SortNames(listing);
    var names := Filter(sorted, AcceptedIn(d));
    assert n in listing;
    assert n in multiset(sorted);
    var k :| 0 <= k < |sorted| && sorted[k] == n;
    assert n in names;
    var m :| 0 <= m < |names| && names[m] == n;
    assert MakeItems(names)[m] == MakeItem(n);
  }

  /** The index is newest first; equal timestamps appear in ascending name order, so
      no name appears twice. */
  lemma IndexOrder(d: Directory, listing: seq<string>)
    requires IsListingOf(listing, d)
    ensures var r := LoadAllRecords(Some(d), listing);
      && NewestFirstThenByName(r)
      && forall i, j :: 0 <= i < j < |r| ==> r[i].filename != r[j].filename
  {
    var r := SortByTimeDesc(AcceptedItems(d, listing));
    assert r == LoadAllRecords(Some(d), listing);
    AcceptedItemsAscending(d, listing);
    SortByTimeDescStable(AcceptedItems(d, listing));
    IndexContents(d, listing);
    forall i, j | 0 <= i < j < |r| ensures r[i].filename != r[j].filename {
      var a, b := r[i], r[j];
      assert a == MakeItem(a.filename) && b == MakeItem(b.filename);
      assert Key(b) < Key(a) || (Key(b) == Key(a) && Less(a.filename, b.filename));
      LessIrreflexive(a.filename);
    }
  }

  /** A record without a timestamp comes after every record with a timestamp later
      than `datetime.min`. */
  lemma UndatedLast(d: Directory, listing: seq<string>, i: int, j: int)
    requires IsListingOf(listing, d)
    requires 0 <= i < |LoadAllRecords(Some(d), listing)|
    requires 0 <= j < |LoadAllRecords(Some(d), listing)|
    requires LoadAllRecords(Some(d), listing)[i].dt.None?
    requires LoadAllRecords(Some(d), listing)[j].dt.Some?
    requires LoadAllRecords(Some(d), listing)[j].dt.value != MinDateTime
    ensures j < i
  {
    IndexRecordWellFormed(d, listing, j);
    IndexOrder(d, listing);
    UndatedAfterDated(LoadAllRecords(Some(d), listing), i, j);
  }

  lemma UndatedAfterDated(r: seq<Item>, i: int, j: int)
    requires NewestFirstThenByName(r)
    requires 0 <= i < |r| && 0 <= j < |r|
    requires r[i].dt.None? && r[j].dt.Some? && Valid(r[j].dt.value) && r[j].dt.value != MinDateTime
    ensures j < i
  {
    var late := r[j].dt.value;
    MinIsEarliest(late);
    if i < j {
      assert Key(r[j]) <= Key(r[i]);
      OrdinalInjective(late, MinDateTime);
    }
  }

  lemma IndexRecordWellFormed(d: Directory, listing: seq<string>, i: int)
    requires IsListingOf(listing, d)
    requires 0 <= i < |LoadAllRecords(Some(d), listing)|
    ensures var it := LoadAllRecords(Some(d), listing)[i];
      it == MakeItem(it.filename) && Accepted(d, it.filename)
  {
    IndexContents(d, listing);
  }

  /** The index does not depend on the order in which `os.listdir` reports entries. */
  lemma IndexIgnoresListingOrder(d: Directory, listing1: seq<string>, listing2: seq<string>)
    requires IsListingOf(listing1, d) && IsListingOf(listing2, d)
    ensures LoadAllRecords(Some(d), listing1) == LoadAllRecords(Some(d), listing2)
  {
    SortNamesAscending(listing1);
    SortNamesAscending(listing2);
    forall x ensures x in SortNames(listing1) <==> x in SortNames(listing2) {
      assert x in SortNames(listing1) <==> x in multiset(listing1);
      assert x in SortNames(listing2) <==> x in multiset(listing2);
      assert x in listing1 <==> x in d;
      assert x in listing2 <==> x in d;
    }
    AscendingUnique(SortNames(listing1), SortNames(listing2));
  }
}

=== FILE: lifecycle.dfy ===
/** What one request guarantees to the next: a stored upload is listed by the index
    with the instant it was taken, and exported with the bytes that were sent. */
module Lifecycle {
  import opened Wrappers
  import opened DateTimes
  import opened TimeText
  import opened Naming
  import opened Store
  import opened Index

  /** After a successful upload at `now`, the index lists the new file once, stamped
      `now`, with its ISO timestamp and an empty transcript. */
  lemma UploadIsIndexed(d: Directory, body: seq<byte>, now: DateTime, listing: seq<string>)
    requires Valid(now) && body != []
    requires !(CanonicalName(now) in d && d[CanonicalName(now)].Other?)
    requires IsListingOf(listing, UploadAudio(d, body, now, None).1)
    ensures var d' := UploadAudio(d, body, now, None).1;
      var r := LoadAllRecords(Some(d'), listing);
      exists i :: 0 <= i < |r|
        && r[i].filename == CanonicalName(now)
        && r[i].dt == Some(now)
        && r[i].datetime == IsoFormat(now)
        && r[i].text == ""
        && forall j :: 0 <= j < |r| && j != i ==> r[j].filename != CanonicalName(now)
  {
    var name := CanonicalName(now);
    var d' := UploadAudio(d, body, now, None).1;
    var r := LoadAllRecords(Some(d'), listing);
    assert Accepted(d', name);
    IndexContents(d', listing);
    IndexOrder(d', listing);
    NameRoundTrip(now);
    var i :| 0 <= i < |r| && r[i] == MakeItem(name);
    forall j | 0 <= j < |r| && j != i ensures r[j].filename != name {
      if j < i {
        assert r[j].filename != r[i].filename;
      } else {
        assert r[i].filename != r[j].filename;
      }
    }
  }

  /** Exporting just the uploaded name yields one archive member holding the uploaded
      bytes, unless the archive writer fails on that file. */
  lemma UploadThenExport(d: Directory, body: seq<byte>, now: DateTime, unwritable: set<string>)
    requires Valid(now) && body != []
    requires !(CanonicalName(now) in d && d[CanonicalName(now)].Other?)
    ensures UploadAudio(d, body, now, None).0 == Ok(CanonicalName(now))
    ensures CanonicalName(now) !in unwritable ==>
      DownloadSelected(UploadAudio(d, body, now, None).1, [CanonicalName(now)], unwritable)
        == Ok([ZipEntry(CanonicalName(now), body)])
    ensures CanonicalName(now) in unwritable ==>
      DownloadSelected(UploadAudio(d, body, now, None).1, [CanonicalName(now)], unwritable)
        == Error(500, "Internal Server Error")
  {
    var name := CanonicalName(now);
    var d' := d[name := File(body)];
    assert UploadAudio(d, body, now, None).1 == d';
    assert IsFile(d', name);
    assert name in [name];
    if name in unwritable {
      assert WriteFails(d', [name], unwritable);
    } else {
      assert !WriteFails(d', [name], unwritable);
      PackSingle(d', name);
    }
  }

  lemma PackSingle(d: Directory, name: string)
    requires IsFile(d, name)
    ensures Pack(d, [name]) == [ZipEntry(name, d[name].data)]
  {
    assert Pack(d, [name]) == [ZipEntry(name, d[name].data)] + Pack(d, []);
  }

  /** A rejected upload leaves the index exactly as it was. */
  lemma RejectedUploadKeepsIndex(d: Directory, body: seq<byte>, now: DateTime, saveError: Option<string>,
                                 listing: seq<string>)
    requires Valid(now)
    requires saveError.None? ==> !(CanonicalName(now) in d && d[CanonicalName(now)].Other?)
    requires body == [] || saveError.Some?
    requires IsListingOf(listing, d)
    ensures UploadAudio(d, body, now, saveError).0.Error?
    ensures LoadAllRecords(Some(UploadAudio(d, body, now, saveError).1), listing)
         == LoadAllRecords(Some(d), listing)
  {
  }
}

=== FILE: naming.dfy ===
/** The archive's file naming: `uploaded_YYYYMMDD_HHMMSS.wav` written from a clock
    reading, and the timestamp read back out of a directory entry's name. */
module Naming {
  import opened Wrappers
  import opened Strings
  import opened Digits
  import opened DateTimes

  const Prefix := "uploaded_"
  const Extension := ".wav"

  /** `dt.strftime("%Y%m%d_%H%M%S")`. */
  function Stamp(dt: DateTime): (r: string)
    requires Valid(dt)
    ensures |r| == 15 && r[8] == '_' && AllDigits(r[..8]) && AllDigits(r[9..])
  {
    Pad(dt.year, 4) + Pad(dt.month, 2) + Pad(dt.day, 2) + "_"
    + Pad(dt.hour, 2) + Pad(dt.minute, 2) + Pad(dt.second, 2)
  }

  /** `datetime.strptime(s, "%Y%m%d_%H%M%S")`, with `None` where it raises. */
  function ParseStamp(s: string): (r: Option<DateTime>)
    ensures r.Some? ==> Valid(r.value)
    ensures r.Some? ==> |s| == 15 && s[8] == '_' && AllDigits(s[..8]) && AllDigits(s[9..])
  {
    if |s| == 15 && s[8] == '_' then
      var dt := DateTime(Num(s[0..4]), Num(s[4..6]), Num(s[6..8]),
                         Num(s[9..11]), Num(s[11..13]), Num(s[13..15]));
      if Valid(dt) then Some(dt) else None
    else None
  }

  lemma {:induction false} ParseStampOfStamp(dt: DateTime)
    requires Valid(dt)
    ensures ParseStamp(Stamp(dt)) == Some(dt)
  {
    var s := Stamp(dt);
    var date := Pad(dt.year, 4) + Pad(dt.month, 2) + Pad(dt.day, 2);
    var time := Pad(dt.hour, 2) + Pad(dt.minute, 2) + Pad(dt.second, 2);
    assert s == date + "_" + time;
    assert s[0..4] == date[0..4] == Pad(dt.year, 4);
    assert s[4..6] == date[4..6] == Pad(dt.month, 2);
    assert s[6..8] == date[6..8] == Pad(dt.day, 2);
    assert s[9..11] == time[0..2] == Pad(dt.hour, 2);
    assert s[11..13] == time[2..4] == Pad(dt.minute, 2);
    assert s[13..15] == time[4..6] == Pad(dt.second, 2);
    NumPad(dt.year, 4);
    NumPad(dt.month, 2);
    NumPad(dt.day, 2);
    NumPad(dt.hour, 2);
    NumPad(dt.minute, 2);
    NumPad(dt.second, 2);
  }

  lemma {:induction false} StampOfParseStamp(s: string)
    requires ParseStamp(s).Some?
    ensures Stamp(ParseStamp(s).value) == s
  {
    PadNum(s[0..4]);
    PadNum(s[4..6]);
    PadNum(s[6..8]);
    PadNum(s[9..11]);
    PadNum(s[11..13]);
    PadNum(s[13..15]);
    assert s == s[..8] + "_" + s[9..];
    assert s[..8] == s[0..4] + s[4..6] + s[6..8];
    assert s[9..] == s[9..11] + s[11..13] + s[13..15];
  }

  /** The stamp parser accepts exactly the stamps of valid datetimes and inverts them. */
  lemma StampRoundTrip(s: string, dt: DateTime)
    ensures ParseStamp(s) == Some(dt) <==> Valid(dt) && s == Stamp(dt)
  {
    if Valid(dt) && s == Stamp(dt) {
      ParseStampOfStamp(dt);
    }
    if ParseStamp(s) == Some(dt) {
      StampOfParseStamp(s);
    }
  }

  /** The name `save_wav_bytes` stores a recording under. */
  function CanonicalName(now: DateTime): (r: string)
    requires Valid(now)
    ensures |r| == 28 && EndsWith(r, Extension)
  {
    Prefix + Stamp(now) + Extension
  }

  /** The first half of `os.path.splitext(p)` (POSIX): the path without its last
      extension, where a dot that only leads the base name starts no extension. */
  function SplitExtRoot(p: string): (root: string)
    ensures root <= p
    // what is cut off is the last `.` and what follows it, all within the last path component
    ensures root != p ==> p[|root|] == '.' && '.' !in p[|root| + 1..] && '/' !in p[|root|..]
    // and the cut never leaves a last component made only of dots
    ensures root != p ==> exists i :: 0 <= i < |root| && root[i] != '.' && '/' !in p[i..]
    // nothing is cut only when no `.` in the last component follows a character other than `.`
    ensures root == p ==> forall i, j :: 0 <= i < j < |p| && p[i] != '.' && p[j] == '.' ==> '/' in p[i..]
  {
    var sepIndex := LastIndexOf(p, '/');
    var dotIndex := LastIndexOf(p, '.');
    if dotIndex > sepIndex && exists i :: sepIndex + 1 <= i < dotIndex && p[i] != '.' then
      ExtensionCut(p, sepIndex, dotIndex);
      p[..dotIndex]
    else
      NoExtensionCut(p, sepIndex, dotIndex);
      p
  }

  /** No `/` occurs from `k` on, when `k` lies past the last `/`. */
  lemma {:induction false} NoSeparatorAfter(p: string, k: int)
    requires LastIndexOf(p, '/') < k <= |p|
    ensures '/' !in p[k..]
  {
    var sep := LastIndexOf(p, '/');
    if sep >= 0 {
      assert p[k..] == p[sep + 1..][k - sep - 1..];
    }
  }

  /** When the last `.` follows the last `/` and some other character in between,
      it starts the extension. */
  lemma {:induction false} ExtensionCut(p: string, sep: int, dot: int)
    requires sep == LastIndexOf(p, '/') && dot == LastIndexOf(p, '.')
    requires dot > sep && exists i :: sep + 1 <= i < dot && p[i] != '.'
    ensures 0 <= dot < |p| && p[dot] == '.' && '.' !in p[dot + 1..] && '/' !in p[dot..]
    ensures exists i :: 0 <= i < dot && p[i] != '.' && '/' !in p[i..]
  {
    NoSeparatorAfter(p, dot);
    var i :| sep + 1 <= i < dot && p[i] != '.';
    NoSeparatorAfter(p, i);
  }

  /** Otherwise no `.` of the last path component follows a character other than `.`. */
  lemma {:induction false} NoExtensionCut(p: string, sep: int, dot: int)
    requires sep == LastIndexOf(p, '/') && dot == LastIndexOf(p, '.')
    requires !(dot > sep && exists i :: sep + 1 <= i < dot && p[i] != '.')
    ensures forall i, j :: 0 <= i < j < |p| && p[i] != '.' && p[j] == '.' ==> '/' in p[i..]
  {
    forall i, j | 0 <= i < j < |p| && p[i] != '.' && p[j] == '.' ensures '/' in p[i..] {
      if sep >= i {
        assert p[i..][sep - i] == '/';
      }
    }
  }

  /** The timestamp `load_all_records` derives from an entry name: strip the extension,
      remove every `uploaded_`, and parse what is left. */
  function ParseName(name: string): (r: Option<DateTime>)
    ensures r.Some? ==> Valid(r.value)
  {
    ParseStamp(ReplaceAll(SplitExtRoot(name), Prefix, ""))
  }

  lemma SplitExtCanonical(now: DateTime)
    requires Valid(now)
    ensures SplitExtRoot(CanonicalName(now)) == Prefix + Stamp(now)
  {
    var root := Prefix + Stamp(now);
    var p := CanonicalName(now);
    assert p == root + ".wav";
    assert '/' !in p;
    var dotIndex := LastIndexOf(p, '.');
    assert p[|p| - 4] == '.';
    assert p[|p| - 3..] == "wav";
    assert dotIndex == |p| - 4;
    assert p[0] != '.';
  }

  /** Removing every `uploaded_` from the prefixed stamp leaves the stamp. */
  lemma RemovePrefixFromStamp(now: DateTime)
    requires Valid(now)
    ensures ReplaceAll(Prefix + Stamp(now), Prefix, "") == Stamp(now)
  {
    var st := Stamp(now);
    assert 'u' !in st by {
      forall i | 0 <= i < |st| ensures st[i] != 'u' {
        if i != 8 {
          var y, mo, d := Pad(now.year, 4), Pad(now.month, 2), Pad(now.day, 2);
          var h, mi, se := Pad(now.hour, 2), Pad(now.minute, 2), Pad(now.second, 2);
          assert st == y + mo + d + "_" + h + mi + se;
          assert AllDigits(y + mo + d) && AllDigits(h + mi + se);
          if i < 8 {
            assert st[i] == (y + mo + d)[i];
          } else {
            assert st[i] == (h + mi + se)[i - 9];
          }
        }
      }
    }
    var s := Prefix + st;
    assert Prefix <= s;
    assert s[|Prefix|..] == st;
  }

  /** Parsing the name written at `now` gives `now` back. */
  lemma NameRoundTrip(now: DateTime)
    requires Valid(now)
    ensures ParseName(CanonicalName(now)) == Some(now)
  {
    SplitExtCanonical(now);
    RemovePrefixFromStamp(now);
    StampRoundTrip(Stamp(now), now);
  }
}

=== FILE: rangefilter.dfy ===
/** `filter_by_range`: the inclusive start/end timestamp filter over view records. */
module RangeFilter {
  import opened Wrappers
  import opened Seqs
  import opened DateTimes
  import opened Index

  /** A timestamp lies in the range: it exists, is not before `start` and not after
      `end`, for whichever bounds are given. */
  predicate InRange(dt: Option<DateTime>, start: Option<DateTime>, end: Option<DateTime>) {
    && dt.Some?
    && (start.Some? ==> !Before(dt.value, start.value))
    && (end.Some? ==> !Before(end.value, dt.value))
  }

  /** On valid datetimes the keep condition is Python's comparison: the timestamp is
      present and neither earlier than the start nor later than the end, field by field. */
  lemma InRangeChronological(dt: Option<DateTime>, start: Option<DateTime>, end: Option<DateTime>)
    requires dt.Some? ==> Valid(dt.value)
    requires start.Some? ==> Valid(start.value)
    requires end.Some? ==> Valid(end.value)
    ensures InRange(dt, start, end) <==>
      && dt.Some?
      && (start.Some? ==> !FieldwiseBefore(dt.value, start.value))
      && (end.Some? ==> !FieldwiseBefore(end.value, dt.value))
  {
    if dt.Some? {
      if start.Some? { BeforeIsChronological(dt.value, start.value); }
      if end.Some? { BeforeIsChronological(end.value, dt.value); }
    }
  }

  function InRangeOf(start: Option<DateTime>, end: Option<DateTime>): Item -> bool {
    (it: Item) => InRange(it.dt, start, end)
  }

  /** Without bounds the records pass through untouched; with at least one bound the
      result keeps exactly the records whose timestamp lies in the range. */
  function FilterByRange(items: seq<Item>, start: Option<DateTime>, end: Option<DateTime>): (r: seq<Item>)
    ensures start.None? && end.None? ==> r == items
    ensures forall i :: 0 <= i < |r| ==> r[i] in items
    ensures start.Some? || end.Some? ==>
      && (forall i :: 0 <= i < |r| ==> InRange(r[i].dt, start, end))
      && (forall i :: 0 <= i < |items| && InRange(items[i].dt, start, end) ==> items[i] in r)
  {
    if start.None? && end.None? then items
    else Filter(items, InRangeOf(start, end))
  }

  /** The result is the input with some records deleted, never reordered, and each kept
      record occurs as often as in the input. */
  lemma FilterByRangeSubsequence(items: seq<Item>, start: Option<DateTime>, end: Option<DateTime>)
    ensures IsSubsequence(FilterByRange(items, start, end), items)
    ensures start.Some? || end.Some? ==> forall it ::
      multiset(FilterByRange(items, start, end))[it]
        == if InRange(it.dt, start, end) then multiset(items)[it] else 0
  {
    if start.Some? || end.Some? {
      FilterIsSubsequence(items, InRangeOf(start, end));
      forall it ensures multiset(FilterByRange(items, start, end))[it]
        == if InRange(it.dt, start, end) then multiset(items)[it] else 0
      {
        FilterCount(items, InRangeOf(start, end), it);
      }
    } else {
      FilterAll(items, (it: Item) => true);
      FilterIsSubsequence(items, (it: Item) => true);
    }
  }

  /** With a bound given, records without a timestamp are dropped. */
  lemma UndatedDropped(items: seq<Item>, start: Option<DateTime>, end: Option<DateTime>, i: int)
    requires start.Some? || end.Some?
    requires 0 <= i < |FilterByRange(items, start, end)|
    ensures FilterByRange(items, start, end)[i].dt.Some?
  {
  }

  /** A start later than the end selects nothing. */
  lemma InvertedRangeIsEmpty(items: seq<Item>, start: DateTime, end: DateTime)
    requires Before(end, start)
    ensures FilterByRange(items, Some(start), Some(end)) == []
  {
    FilterNone(items, InRangeOf(Some(start), Some(end)));
  }

  /** Filtering a second time with the same bounds changes nothing. */
  lemma FilterByRangeIdempotent(items: seq<Item>, start: Option<DateTime>, end: Option<DateTime>)
    ensures var once := FilterByRange(items, start, end);
      FilterByRange(once, start, end) == once
  {
    if start.Some? || end.Some? {
      FilterAll(FilterByRange(items, start, end), InRangeOf(start, end));
    }
  }
}

=== FILE: search.dfy ===
/** The search page's query: the form fields with their defaults, the two bounds
    built from them by `parse_dt`, and the filtered index they select. */
module Search {
  import opened Wrappers
  import Digits
  import opened DateTimes
  import opened TimeText
  import opened Store
  import opened Index
  import opened RangeFilter

  /** The time `parse_dt` uses when the time text is empty. */
  function DefaultTime(isEnd: bool): string {
    if isEnd then "23:59" else "00:00"
  }

  /** The time text `parse_dt` actually parses. */
  function EffectiveTime(time: string, isEnd: bool): string {
    if time == [] then DefaultTime(isEnd) else time
  }

  /** `parse_dt(date, time, is_end)`: no bound for an empty date or for text that is not
      `YYYY-MM-DD HH:MM`; otherwise the minute it names. */
  function ParseBound(date: string, time: string, isEnd: bool): (r: Option<DateTime>)
    ensures date == [] ==> r.None?
    ensures r.Some? ==> Valid(r.value) && r.value.second == 0
    ensures r.Some? ==> FormatMinute(r.value) == date + " " + EffectiveTime(time, isEnd)
  {
    if date == [] then None
    else
      var r := ParseMinute(date + " " + EffectiveTime(time, isEnd));
      if r.Some? then
        MinuteRoundTrip(date + " " + EffectiveTime(time, isEnd), r.value);
        r
      else r
  }

  /** A non-empty date yields a bound exactly when date, space and time spell a valid
      minute, and the bound is that minute. */
  lemma ParseBoundExact(date: string, time: string, isEnd: bool, dt: DateTime)
    requires date != []
    ensures ParseBound(date, time, isEnd) == Some(dt)
        <==> Valid(dt) && dt.second == 0 && date + " " + EffectiveTime(time, isEnd) == FormatMinute(dt)
  {
    MinuteRoundTrip(date + " " + EffectiveTime(time, isEnd), dt);
  }

  /** The form's own rendering of a datetime parses back to that datetime's minute. */
  lemma ParseBoundRoundTrip(dt: DateTime, isEnd: bool)
    requires Valid(dt)
    ensures ParseBound(FormatDate(dt), FormatClock(dt), isEnd) == Some(TruncateToMinute(dt))
  {
    ParseBoundExact(FormatDate(dt), FormatClock(dt), isEnd, TruncateToMinute(dt));
  }

  /** Start of the day `dt` falls on. */
  function DayStart(dt: DateTime): DateTime {
    dt.(hour := 0, minute := 0, second := 0)
  }

  /** The last minute of the day `dt` falls on. */
  function DayLastMinute(dt: DateTime): DateTime {
    dt.(hour := 23, minute := 59, second := 0)
  }

  /** The default times are the clock texts of the day's first and last minute. */
  lemma DefaultTimesSpellDayBounds(day: DateTime)
    requires Valid(day)
    ensures FormatClock(DayStart(day)) == DefaultTime(false)
    ensures FormatClock(DayLastMinute(day)) == DefaultTime(true)
    ensures FormatDate(DayStart(day)) == FormatDate(day) == FormatDate(DayLastMinute(day))
  {
    assert Digits.Pad(0, 1) == "0";
    assert Digits.Pad(0, 2) == "00";
    assert Digits.Pad(2, 1) == "2";
    assert Digits.Pad(23, 2) == "23";
    assert Digits.Pad(5, 1) == "5";
    assert Digits.Pad(59, 2) == "59";
  }

  /** An empty time means the start or the last minute of the given day. */
  lemma ParseBoundEmptyTime(day: DateTime)
    requires Valid(day)
    ensures ParseBound(FormatDate(day), "", false) == Some(DayStart(day))
    ensures ParseBound(FormatDate(day), "", true) == Some(DayLastMinute(day))
  {
    DefaultTimesSpellDayBounds(day);
    ParseBoundRoundTrip(DayStart(day), false);
    ParseBoundRoundTrip(DayLastMinute(day), true);
  }

  /** The submitted form fields; `None` for a GET request, which has no form. */
  type Form = map<string, string>

  /** `request.form.get(key) or default`, and `default` for a GET request. */
  function FieldOr(form: Option<Form>, key: string, default: string): (r: string)
    ensures default != [] ==> r != []
    ensures form.Some? && key in form.value && form.value[key] != [] ==> r == form.value[key]
    ensures form.None? || key !in form.value || form.value[key] == [] ==> r == default
  {
    match form
    case Some(f) => if key in f && f[key] != [] then f[key] else default
    case None => default
  }

  /** The start and end bounds `index` filters with, given the clock reading `now`. */
  function SearchBounds(now: DateTime, form: Option<Form>): (r: (Option<DateTime>, Option<DateTime>))
    requires Valid(now)
    ensures r.0.Some? ==> Valid(r.0.value) && r.0.value.second == 0
    ensures r.1.Some? ==> Valid(r.1.value) && r.1.value.second == 0
    ensures form.None? ==> r.0.Some? && r.1.Some?
  {
    var today := FormatDate(now);
    DefaultTimesSpellDayBounds(now);
    ParseBoundRoundTrip(DayStart(now), false);
    ParseBoundRoundTrip(DayLastMinute(now), true);
    (ParseBound(FieldOr(form, "start_date", today), FieldOr(form, "start_time", "00:00"), false),
     ParseBound(FieldOr(form, "end_date", today), FieldOr(form, "end_time", "23:59"), true))
  }

  /** With a submitted form, the start bound is the minute its `start_date` and
      `start_time` fields spell, each field falling back to today's date or 00:00 when
      missing or empty; there is no start bound when they spell no valid minute. */
  lemma FormStartBound(now: DateTime, f: Form, dt: DateTime)
    requires Valid(now)
    ensures var date := if "start_date" in f && f["start_date"] != [] then f["start_date"] else FormatDate(now);
      var time := if "start_time" in f && f["start_time"] != [] then f["start_time"] else "00:00";
      (SearchBounds(now, Some(f)).0 == Some(dt) <==>
        Valid(dt) && dt.second == 0 && date + " " + time == FormatMinute(dt))
  {
    var date := FieldOr(Some(f), "start_date", FormatDate(now));
    var time := FieldOr(Some(f), "start_time", "00:00");
    assert EffectiveTime(time, false) == time;
    ParseBoundExact(date, time, false, dt);
  }

  /** The same for the end bound, with `end_date`, `end_time` and 23:59. */
  lemma FormEndBound(now: DateTime, f: Form, dt: DateTime)
    requires Valid(now)
    ensures var date := if "end_date" in f && f["end_date"] != [] then f["end_date"] else FormatDate(now);
      var time := if "end_time" in f && f["end_time"] != [] then f["end_time"] else "23:59";
      (SearchBounds(now, Some(f)).1 == Some(dt) <==>
        Valid(dt) && dt.second == 0 && date + " " + time == FormatMinute(dt))
  {
    var date := FieldOr(Some(f), "end_date", FormatDate(now));
    var time := FieldOr(Some(f), "end_time", "23:59");
    assert EffectiveTime(time, true) == time;
    ParseBoundExact(date, time, true, dt);
  }

  /** The records the search page lists. */
  function SearchView(now: DateTime, form: Option<Form>, dir: Option<Directory>, listing: seq<string>)
    : (r: seq<Item>)
    requires Valid(now)
    requires dir.Some? ==> IsListingOf(listing, dir.value)
    ensures Seqs.IsSubsequence(r, LoadAllRecords(dir, listing))
    ensures forall i :: 0 <= i < |r| ==> r[i] in LoadAllRecords(dir, listing)
    ensures form.None? ==> forall i :: 0 <= i < |r| ==> r[i].dt.Some?
    // when neither bound parses, the whole index is listed, undated records included
    ensures var (start, end) := SearchBounds(now, form);
      start.None? && end.None? ==> r == LoadAllRecords(dir, listing)
    // otherwise exactly the indexed records within the bounds are listed
    ensures var (start, end) := SearchBounds(now, form);
      var index := LoadAllRecords(dir, listing);
      start.Some? || end.Some? ==>
        && (forall i :: 0 <= i < |r| ==> InRange(r[i].dt, start, end))
        && (forall i :: 0 <= i < |index| && InRange(index[i].dt, start, end) ==> index[i] in r)
  {
    var (start, end) := SearchBounds(now, form);
    var index := LoadAllRecords(dir, listing);
    FilterByRangeSubsequence(index, start, end);
    FilterByRange(index, start, end)
  }

  /** Same day as `now`, and no later than its last minute. */
  predicate ListedByDefault(now: DateTime, dt: DateTime) {
    && dt.year == now.year && dt.month == now.month && dt.day == now.day
    && !(dt.hour == 23 && dt.minute == 59 && dt.second > 0)
  }

  /** The page without a form lists, in index order, exactly the indexed records dated
      within today's window. */
  lemma DefaultSearchView(now: DateTime, d: Directory, listing: seq<string>)
    requires Valid(now) && IsListingOf(listing, d)
    ensures var r := SearchView(now, None, Some(d), listing);
      var index := LoadAllRecords(Some(d), listing);
      && Seqs.IsSubsequence(r, index)
      && (forall i :: 0 <= i < |r| ==> r[i].dt.Some? && ListedByDefault(now, r[i].dt.value))
      && (forall i :: 0 <= i < |index| && index[i].dt.Some? && ListedByDefault(now, index[i].dt.value)
            ==> index[i] in r)
  {
    var index := LoadAllRecords(Some(d), listing);
    var r := SearchView(now, None, Some(d), listing);
    DefaultBoundsAreToday(now);
    forall i | 0 <= i < |r| ensures r[i].dt.Some? && ListedByDefault(now, r[i].dt.value) {
      IndexRecordWellFormed(d, listing, IndexOf(index, r[i]));
      DefaultViewWindow(now, r[i].dt.value);
    }
    forall i | 0 <= i < |index| && index[i].dt.Some? && ListedByDefault(now, index[i].dt.value)
      ensures index[i] in r
    {
      IndexRecordWellFormed(d, listing, i);
      DefaultViewWindow(now, index[i].dt.value);
    }
  }

  /** A position of `x` in `s`. */
  function IndexOf(s: seq<Item>, x: Item): (k: int)
    requires x in s
    ensures 0 <= k < |s| && s[k] == x
  {
    if s[0] == x then 0 else 1 + IndexOf(s[1..], x)
  }

  /** Without a form, the page searches from the start of today to its last minute. */
  lemma DefaultBoundsAreToday(now: DateTime)
    requires Valid(now)
    ensures SearchBounds(now, None) == (Some(DayStart(now)), Some(DayLastMinute(now)))
  {
    DefaultTimesSpellDayBounds(now);
    ParseBoundRoundTrip(DayStart(now), false);
    ParseBoundRoundTrip(DayLastMinute(now), true);
  }

  /** Without a form, a record is listed exactly when it was made today no later than
      23:59:00; records from the final 59 seconds of the day are not listed. */
  lemma DefaultViewWindow(now: DateTime, dt: DateTime)
    requires Valid(now) && Valid(dt)
    ensures var (start, end) := SearchBounds(now, None);
      InRange(Some(dt), start, end) <==> ListedByDefault(now, dt)
  {
    DefaultBoundsAreToday(now);
    BeforeIsChronological(dt, DayStart(now));
    BeforeIsChronological(DayLastMinute(now), dt);
  }
}

=== FILE: seqs.dfy ===
/** Order-preserving selection from a sequence, the shape of every list comprehension
    and `if …: continue` loop in the program. */
module Seqs {

  /** The elements of `s` that satisfy `p`, in their original order. */
  function Filter<T(==)>(s: seq<T>, p: T -> bool): (r: seq<T>)
    ensures |r| <= |s|
    ensures forall i :: 0 <= i < |r| ==> p(r[i])
    ensures forall x :: x in r ==> x in s
    ensures forall i :: 0 <= i < |s| && p(s[i]) ==> s[i] in r
  {
    if s == [] then []
    else if p(s[0]) then [s[0]] + Filter(s[1..], p)
    else Filter(s[1..], p)
  }

  /** No element occurs twice. */
  ghost predicate NoDuplicates<T>(s: seq<T>) {
    forall i, j :: 0 <= i < j < |s| ==> s[i] != s[j]
  }

  /** `a` can be obtained from `b` by deleting elements, without reordering. */
  ghost predicate IsSubsequence<T>(a: seq<T>, b: seq<T>)
    decreases |b|
  {
    if a == [] then true
    else if b == [] then false
    else (a[0] == b[0] && IsSubsequence(a[1..], b[1..])) || IsSubsequence(a, b[1..])
  }

  lemma {:induction false} FilterIsSubsequence<T>(s: seq<T>, p: T -> bool)
    ensures IsSubsequence(Filter(s, p), s)
    decreases |s|
  {
    if s != [] {
      FilterIsSubsequence(s[1..], p);
      if p(s[0]) {
        var r := Filter(s, p);
        assert r[0] == s[0] && r[1..] == Filter(s[1..], p);
      }
    }
  }

  /** Every selected element occurs as often as in `s`; every rejected one not at all. */
  lemma {:induction false} FilterCount<T>(s: seq<T>, p: T -> bool, x: T)
    ensures multiset(Filter(s, p))[x] == if p(x) then multiset(s)[x] else 0
    decreases |s|
  {
    if s != [] {
      FilterCount(s[1..], p, x);
      assert s == [s[0]] + s[1..];
    }
  }

  /** Selecting when everything qualifies leaves the sequence as it was. */
  lemma {:induction false} FilterAll<T>(s: seq<T>, p: T -> bool)
    requires forall i :: 0 <= i < |s| ==> p(s[i])
    ensures Filter(s, p) == s
    decreases |s|
  {
    if s != [] {
      FilterAll(s[1..], p);
      assert s == [s[0]] + s[1..];
    }
  }

  lemma {:induction false} FilterNone<T>(s: seq<T>, p: T -> bool)
    requires forall i :: 0 <= i < |s| ==> !p(s[i])
    ensures Filter(s, p) == []
    decreases |s|
  {
    if s != [] {
      FilterNone(s[1..], p);
    }
  }
}

=== FILE: store.dfy ===
/** The upload directory and the two requests that write to it or read from it in
    bulk: storing an uploaded recording and exporting a selection. */
module Store {
  import opened Wrappers
  import opened Seqs
  import opened DateTimes
  import opened Naming

  newtype byte = b: int | 0 <= b < 256

  /** A directory entry: a regular file with its bytes, or anything `os.path.isfile`
      rejects (a sub-directory, say). */
  datatype Node = File(data: seq<byte>) | Other

  /** The upload directory, by entry name. */
  type Directory = map<string, Node>

  /** `os.path.isfile(os.path.join(UPLOAD_DIR, name))` for a name inside the directory. */
  predicate IsFile(d: Directory, name: string) {
    name in d && d[name].File?
  }

  function IsFileIn(d: Directory): string -> bool {
    name => IsFile(d, name)
  }

  /** A JSON reply: a success value, or an error status with its message. */
  datatype Reply<+T> = Ok(value: T) | Error(status: int, message: string)

  /** `upload_audio`: reject an empty body, otherwise store it under the name derived
      from the clock reading `now`. `saveError` is what the operating system reports
      when opening or writing the file fails (`None` when the write succeeds); the
      operating system refuses to open a sub-directory for writing. */
  function UploadAudio(d: Directory, body: seq<byte>, now: DateTime, saveError: Option<string>)
    : (r: (Reply<string>, Directory))
    requires Valid(now)
    requires saveError.None? ==> !(CanonicalName(now) in d && d[CanonicalName(now)].Other?)
    ensures body == [] ==> r == (Error(400, "no data"), d)
    ensures body != [] && saveError.Some? ==> r == (Error(500, "save failed: " + saveError.value), d)
    ensures body != [] && saveError.None? ==>
      && r.0 == Ok(CanonicalName(now))
      && ParseName(r.0.value) == Some(now)
      && r.1.Keys == d.Keys + {r.0.value}
      && r.1[r.0.value] == File(body)
      && forall n :: n in d && n != r.0.value ==> r.1[n] == d[n]
  {
    if body == [] then (Error(400, "no data"), d)
    else match saveError
      case Some(e) => (Error(500, "save failed: " + e), d)
      case None =>
        var name := CanonicalName(now);
        NameRoundTrip(now);
        (Ok(name), d[name := File(body)])
  }

  /** One member of the exported archive: its name in the archive and its contents. */
  datatype ZipEntry = ZipEntry(arcname: string, data: seq<byte>)

  function ArcNames(entries: seq<ZipEntry>): (r: seq<string>)
    ensures |r| == |entries|
    ensures forall i :: 0 <= i < |r| ==> r[i] == entries[i].arcname
  {
    if entries == [] then [] else [entries[0].arcname] + ArcNames(entries[1..])
  }

  /** The archive members written for the requested names, in request order. */
  function Pack(d: Directory, names: seq<string>): (r: seq<ZipEntry>)
    ensures |r| <= |names|
    ensures forall e :: e in r ==> IsFile(d, e.arcname) && d[e.arcname].data == e.data
  {
    if names == [] then []
    else if IsFile(d, names[0]) then [ZipEntry(names[0], d[names[0]].data)] + Pack(d, names[1..])
    else Pack(d, names[1..])
  }

  /** The archive holds the requested names that are stored files, in request order,
      repeats included. */
  lemma {:induction false} PackNames(d: Directory, names: seq<string>)
    ensures ArcNames(Pack(d, names)) == Filter(names, IsFileIn(d))
    decreases |names|
  {
    if names != [] {
      PackNames(d, names[1..]);
      var r := Pack(d, names);
      if IsFile(d, names[0]) {
        assert r[1..] == Pack(d, names[1..]);
        assert ArcNames(r) == [r[0].arcname] + ArcNames(r[1..]);
      }
    }
  }

  /** A requested name that is a stored file but that the archive writer cannot add:
      the file cannot be read, vanished after the `isfile` test, or has a modification
      time before 1980, which a ZIP header cannot hold. `unwritable` is the set of names
      the operating system would fail on in this way. */
  predicate WriteFails(d: Directory, files: seq<string>, unwritable: set<string>) {
    exists n :: n in files && IsFile(d, n) && n in unwritable
  }

  /** `download_selected`: an empty selection is an error; otherwise the archive is
      built from whichever requested names are stored files, and an error raised while
      adding one of them ends the request with the framework's internal-error reply. */
  function DownloadSelected(d: Directory, files: seq<string>, unwritable: set<string>)
    : (r: Reply<seq<ZipEntry>>)
    ensures files == [] <==> r == Error(400, "no files selected")
    ensures files != [] && WriteFails(d, files, unwritable) <==> r == Error(500, "Internal Server Error")
    ensures r.Ok? <==> files != [] && !WriteFails(d, files, unwritable)
  {
    if files == [] then Error(400, "no files selected")
    else if WriteFails(d, files, unwritable) then Error(500, "Internal Server Error")
    else Ok(Pack(d, files))
  }

  /** When every requested stored file can be added, the export succeeds; its members
      are exactly the requested stored files, in request order, each with its stored
      bytes, and names that are not stored files are skipped. */
  lemma ExportContents(d: Directory, files: seq<string>, unwritable: set<string>)
    requires files != []
    ensures DownloadSelected(d, files, unwritable).Ok? <==> !WriteFails(d, files, unwritable)
    ensures DownloadSelected(d, files, unwritable).Ok? ==>
      var entries := DownloadSelected(d, files, unwritable).value;
      && IsSubsequence(ArcNames(entries), files)
      && (forall e :: e in entries ==> IsFile(d, e.arcname) && e.data == d[e.arcname].data)
      && (forall n :: multiset(ArcNames(entries))[n] == if IsFile(d, n) then multiset(files)[n] else 0)
  {
    var entries := Pack(d, files);
    PackNames(d, files);
    FilterIsSubsequence(files, IsFileIn(d));
    forall n ensures multiset(ArcNames(entries))[n] == if IsFile(d, n) then multiset(files)[n] else 0 {
      FilterCount(files, IsFileIn(d), n);
    }
  }
}

=== FILE: strings.dfy ===
/** The parts of Python's `str` the program relies on: code-point order (as used by
    `sorted`), `endswith`, `rfind` and `replace`. */
module Strings {
  import opened Seqs

  /** Python's `a < b` on str: lexicographic by code point, a proper prefix first. */
  predicate Less(a: string, b: string)
    decreases |a|
  {
    if a == [] then b != []
    else if b == [] then false
    else a[0] < b[0] || (a[0] == b[0] && Less(a[1..], b[1..]))
  }

  lemma {:induction false} LessIrreflexive(a: string)
    ensures !Less(a, a)
    decreases |a|
  {
    if a != [] {
      LessIrreflexive(a[1..]);
    }
  }

  lemma {:induction false} LessTransitive(a: string, b: string, c: string)
    requires Less(a, b) && Less(b, c)
    ensures Less(a, c)
    decreases |a|
  {
    if a != [] && a[0] == b[0] && b[0] == c[0] {
      LessTransitive(a[1..], b[1..], c[1..]);
    }
  }

  /** Any two different strings are ordered one way or the other. */
  lemma {:induction false} LessTotal(a: string, b: string)
    ensures a == b || Less(a, b) || Less(b, a)
    decreases |a|
  {
    if a != [] && b != [] && a[0] == b[0] {
      LessTotal(a[1..], b[1..]);
      if a[1..] == b[1..] {
        assert a == [a[0]] + a[1..] && b == [b[0]] + b[1..];
      }
    }
  }

  lemma LessAsymmetric(a: string, b: string)
    requires Less(a, b)
    ensures !Less(b, a)
  {
    if Less(b, a) {
      LessTransitive(a, b, a);
      LessIrreflexive(a);
    }
  }

  /** Every string is strictly smaller than every later one. */
  ghost predicate StrictlyAscending(s: seq<string>) {
    forall i, j :: 0 <= i < j < |s| ==> Less(s[i], s[j])
  }

  /** Places `x` before the first element it is smaller than. */
  function InsertName(x: string, s: seq<string>): (r: seq<string>)
    ensures multiset(r) == multiset(s) + multiset{x}
  {
    if s == [] then [x]
    else if Less(x, s[0]) then [x] + s
    else
      assert s == [s[0]] + s[1..];
      [s[0]] + InsertName(x, s[1..])
  }

  /** Python's `sorted(names)` on a list of str. */
  function SortNames(names: seq<string>): (r: seq<string>)
    ensures multiset(r) == multiset(names)
  {
    if names == [] then []
    else
      assert names == [names[0]] + names[1..];
      InsertName(names[0], SortNames(names[1..]))
  }

  lemma {:induction false} InsertNameAscending(x: string, s: seq<string>)
    requires StrictlyAscending(s) && x !in s
    ensures StrictlyAscending(InsertName(x, s))
    decreases |s|
  {
    if s != [] {
      LessTotal(x, s[0]);
      if Less(x, s[0]) {
        forall j | 1 <= j < |s| ensures Less(x, s[j]) {
          LessTransitive(x, s[0], s[j]);
        }
      } else {
        InsertNameAscending(x, s[1..]);
        var t := InsertName(x, s[1..]);
        forall j | 0 <= j < |t| ensures Less(s[0], t[j]) {
          assert t[j] in multiset(s[1..]) + multiset{x};
        }
      }
    }
  }

  /** `sorted` of a list without repeats is strictly ascending and holds the same names. */
  lemma {:induction false} SortNamesAscending(names: seq<string>)
    requires NoDuplicates(names)
    ensures StrictlyAscending(SortNames(names))
    decreases |names|
  {
    if names != [] {
      SortNamesAscending(names[1..]);
      assert names[0] !in multiset(names[1..]);
      InsertNameAscending(names[0], SortNames(names[1..]));
    }
  }

  /** Two strictly ascending sequences holding the same strings are the same sequence. */
  lemma {:induction false} AscendingUnique(a: seq<string>, b: seq<string>)
    requires StrictlyAscending(a) && StrictlyAscending(b)
    requires forall x :: x in a <==> x in b
    ensures a == b
    decreases |a|
  {
    if a != [] {
      assert a[0] in b;
    }
    if b != [] {
      assert b[0] in a;
    }
    if a != [] {
      var k :| 0 <= k < |b| && b[k] == a[0];
      var l :| 0 <= l < |a| && a[l] == b[0];
      if k > 0 && l > 0 {
        LessAsymmetric(b[0], a[0]);
        assert false;
      }
      assert a[0] == b[0];
      forall x ensures x in a[1..] <==> x in b[1..] {
        if x in a[1..] {
          var i :| 1 <= i < |a| && a[i] == x;
          assert Less(b[0], x);
          assert x in a;
          var m :| 0 <= m < |b| && b[m] == x;
          if m == 0 {
            LessIrreflexive(x);
          }
          assert x == b[1..][m - 1];
        }
        if x in b[1..] {
          var i :| 1 <= i < |b| && b[i] == x;
          assert Less(a[0], x);
          assert x in b;
          var m :| 0 <= m < |a| && a[m] == x;
          if m == 0 {
            LessIrreflexive(x);
          }
          assert x == a[1..][m - 1];
        }
      }
      AscendingUnique(a[1..], b[1..]);
      assert a == [a[0]] + a[1..] && b == [b[0]] + b[1..];
    }
  }

  /** Selection keeps strict ascent. */
  lemma {:induction false} FilterAscending(s: seq<string>, p: string -> bool)
    requires StrictlyAscending(s)
    ensures StrictlyAscending(Filter(s, p))
    decreases |s|
  {
    if s != [] {
      FilterAscending(s[1..], p);
      var t := Filter(s[1..], p);
      forall j | 0 <= j < |t| ensures Less(s[0], t[j]) {
        assert t[j] in s[1..];
      }
    }
  }

  /** Python's `s.endswith(suffix)`. */
  predicate EndsWith(s: string, suffix: string) {
    |suffix| <= |s| && s[|s| - |suffix|..] == suffix
  }

  /** Python's `s.rfind(c)` for a single character: the last index holding `c`, or -1. */
  function LastIndexOf(s: string, c: char): (r: int)
    ensures -1 <= r < |s|
    ensures r == -1 <==> c !in s
    ensures r >= 0 ==> s[r] == c && c !in s[r + 1..]
  {
    if s == [] then -1
    else if s[|s| - 1] == c then |s| - 1
    else LastIndexOf(s[..|s| - 1], c)
  }

  /** Python's `s.replace(pattern, replacement)`: every non-overlapping occurrence,
      scanning left to right; an empty pattern matches around every character. */
  function ReplaceAll(s: string, pattern: string, replacement: string): (r: string)
    ensures pattern != [] && pattern[0] !in s ==> r == s
    decreases |s|
  {
    if pattern == [] then
      if s == [] then replacement
      else replacement + [s[0]] + ReplaceAll(s[1..], pattern, replacement)
    else if s == [] then []
    else if pattern <= s then replacement + ReplaceAll(s[|pattern|..], pattern, replacement)
    else [s[0]] + ReplaceAll(s[1..], pattern, replacement)
  }
}

=== FILE: timetext.dfy ===
/** The other textual forms of a datetime the program uses: `isoformat()` for the
    index, and the `%Y-%m-%d` / `%H:%M` pair of the search form. */
module TimeText {
  import opened Wrappers
  import opened Digits
  import opened DateTimes

  /** `dt.strftime("%Y-%m-%d")`. */
  function FormatDate(dt: DateTime): (r: string)
    requires Valid(dt)
    ensures |r| == 10 && r[4] == '-' && r[7] == '-'
  {
    Pad(dt.year, 4) + "-" + Pad(dt.month, 2) + "-" + Pad(dt.day, 2)
  }

  /** `dt.strftime("%H:%M")`. */
  function FormatClock(dt: DateTime): (r: string)
    requires Valid(dt)
    ensures |r| == 5 && r[2] == ':'
  {
    Pad(dt.hour, 2) + ":" + Pad(dt.minute, 2)
  }

  /** `dt.strftime("%Y-%m-%d %H:%M")`. */
  function FormatMinute(dt: DateTime): (r: string)
    requires Valid(dt)
    ensures |r| == 16
  {
    FormatDate(dt) + " " + FormatClock(dt)
  }

  /** `dt.isoformat()` for a datetime without microseconds. */
  function IsoFormat(dt: DateTime): (r: string)
    requires Valid(dt)
    ensures |r| == 19 && r[..10] == FormatDate(dt) && r[10] == 'T' && r[13] == ':' && r[16] == ':'
  {
    FormatDate(dt) + "T" + FormatClock(dt) + ":" + Pad(dt.second, 2)
  }

  /** Where each field sits in the ISO text. */
  lemma IsoFormatFields(dt: DateTime)
    requires Valid(dt)
    ensures var s := IsoFormat(dt);
      && s[0..4] == Pad(dt.year, 4) && s[5..7] == Pad(dt.month, 2) && s[8..10] == Pad(dt.day, 2)
      && s[11..13] == Pad(dt.hour, 2) && s[14..16] == Pad(dt.minute, 2) && s[17..19] == Pad(dt.second, 2)
  {
    var date, clock, sec := FormatDate(dt), FormatClock(dt), Pad(dt.second, 2);
    var s := IsoFormat(dt);
    assert s == date + "T" + clock + ":" + sec;
    assert s[0..4] == date[0..4] && s[5..7] == date[5..7] && s[8..10] == date[8..10];
    assert s[11..13] == clock[0..2] && s[14..16] == clock[3..5] && s[17..19] == sec;
  }

  /** The ISO text determines the whole datetime, seconds included: two valid datetimes
      with the same text are equal. */
  lemma {:induction false} IsoFormatInjective(a: DateTime, b: DateTime)
    requires Valid(a) && Valid(b) && IsoFormat(a) == IsoFormat(b)
    ensures a == b
  {
    IsoFormatFields(a);
    IsoFormatFields(b);
    NumPad(a.year, 4);
    NumPad(b.year, 4);
    NumPad(a.month, 2);
    NumPad(b.month, 2);
    NumPad(a.day, 2);
    NumPad(b.day, 2);
    NumPad(a.hour, 2);
    NumPad(b.hour, 2);
    NumPad(a.minute, 2);
    NumPad(b.minute, 2);
    NumPad(a.second, 2);
    NumPad(b.second, 2);
  }

  /** `dt` with its seconds dropped. */
  function TruncateToMinute(dt: DateTime): (r: DateTime)
    ensures Valid(dt) ==> Valid(r)
    ensures r.second == 0
    ensures Valid(dt) ==> Ordinal(r) <= Ordinal(dt) < Ordinal(r) + 60
  {
    dt.(second := 0)
  }

  /** `datetime.strptime(s, "%Y-%m-%d %H:%M")`, with `None` where it raises. */
  function ParseMinute(s: string): (r: Option<DateTime>)
    ensures r.Some? ==> Valid(r.value) && r.value.second == 0
    ensures r.Some? ==> |s| == 16 && s[4] == '-' && s[7] == '-' && s[10] == ' ' && s[13] == ':'
    ensures r.Some? ==> AllDigits(s[0..4]) && AllDigits(s[5..7]) && AllDigits(s[8..10])
    ensures r.Some? ==> AllDigits(s[11..13]) && AllDigits(s[14..16])
  {
    if |s| == 16 && s[4] == '-' && s[7] == '-' && s[10] == ' ' && s[13] == ':' then
      var dt := DateTime(Num(s[0..4]), Num(s[5..7]), Num(s[8..10]), Num(s[11..13]), Num(s[14..16]), 0);
      if Valid(dt) then Some(dt) else None
    else None
  }

  /** Writing a valid minute and parsing it back gives that minute. */
  lemma {:induction false} ParseFormatMinute(dt: DateTime)
    requires Valid(dt) && dt.second == 0
    ensures ParseMinute(FormatMinute(dt)) == Some(dt)
  {
    var date, clock := FormatDate(dt), FormatClock(dt);
    var s := FormatMinute(dt);
    assert s == date + " " + clock;
    assert s[0..4] == date[0..4] == Pad(dt.year, 4);
    assert s[5..7] == date[5..7] == Pad(dt.month, 2);
    assert s[8..10] == date[8..10] == Pad(dt.day, 2);
    assert s[11..13] == clock[0..2] == Pad(dt.hour, 2);
    assert s[14..16] == clock[3..5] == Pad(dt.minute, 2);
    NumPad(dt.year, 4);
    NumPad(dt.month, 2);
    NumPad(dt.day, 2);
    NumPad(dt.hour, 2);
    NumPad(dt.minute, 2);
  }

  /** Whatever the minute parser accepts is the canonical text of what it returns. */
  lemma {:induction false} FormatParseMinute(s: string)
    requires ParseMinute(s).Some?
    ensures FormatMinute(ParseMinute(s).value) == s
  {
    var dt := ParseMinute(s).value;
    PadNum(s[0..4]);
    PadNum(s[5..7]);
    PadNum(s[8..10]);
    PadNum(s[11..13]);
    PadNum(s[14..16]);
    assert FormatDate(dt) == s[0..4] + "-" + s[5..7] + "-" + s[8..10];
    assert FormatClock(dt) == s[11..13] + ":" + s[14..16];
    assert s == s[..10] + " " + s[11..];
    assert s[..10] == s[0..4] + "-" + s[5..7] + "-" + s[8..10];
    assert s[11..] == s[11..13] + ":" + s[14..16];
  }

  /** The minute parser accepts exactly the minute-resolution texts of valid datetimes,
      and reads back the datetime truncated to the minute. */
  lemma MinuteRoundTrip(s: string, dt: DateTime)
    ensures ParseMinute(s) == Some(dt) <==> Valid(dt) && dt.second == 0 && s == FormatMinute(dt)
  {
    if Valid(dt) && dt.second == 0 && s == FormatMinute(dt) {
      ParseFormatMinute(dt);
    }
    if ParseMinute(s) == Some(dt) {
      FormatParseMinute(s);
    }
  }
}

=== FILE: wrappers.dfy ===
/** The optional value used wherever the program yields `None`. */
module Wrappers {

  /** Python's `None` versus a present value. */
  datatype Option<+T> = None | Some(value: T) {

    /** The present value, or `default` when there is none (Python's `x or default`). */
    function GetOr(default: T): T {
      match this
      case Some(v) => v
      case None => default
    }
  }
}
